=== FILE: README.md ===
# carlog core, modelled in Dafny

carlog is a command-line companion for a small networked car. It connects to
the car over TCP, then:

- colours the car's log lines by severity (`watch`);
- turns terminal key presses into four-byte motor frames (`control`);
- in the interactive session (`repl`), reads the car's startup log, where
  the car announces its remotely callable entries:

  ```
  I <time> RPC_REGISTER id=<u8> {FN|SET|GET} <description>
  ```

  It collects these descriptors until the registration block ends. It groups
  them into `fn`, `set` and `get` commands, and turns each command the
  operator types into a frame `[0x7f, id, hi, lo]` or an error message.

This project models that core as pure functions over immutable data, plus a
few methods with loops. It proves what the code promises. The modules are:

| module | what it holds |
|---|---|
| `Wrappers` | `Option` |
| `Ints` | `u8`/`u16`/`i16` as integer ranges; the two's-complement casts `as u16`, `as i16` and `as u8`; Rust's `FromStr` for `u8` and `i16` (an optional sign, then digits, then a range check); decimal printing |
| `Text` | `str::trim` over Unicode White_Space; `split_ascii_whitespace` (space, tab, LF, FF, CR); `join(" ")`; `split_once`; counting a character |
| `Watch` | `decorate_log`: trim the line, pick a colour from its level token, keep the text |
| `Control` | the `Control` motor command, its frame encoding, a decoder for the frame (its partner), and the key table |
| `Discovery` | line classification, the stop policy, the scanner thread and the relay that displays the rest of the stream |
| `Commands` | grouping by kind; the RPC frame and its decoder; argument classification; the `fn`, `get` and `set` commands |

Terminal output is modelled as the list of `Rendered(style, text)` values
displayed, in order. What a command does is modelled as its `Reply`: it
either writes a frame to the socket (`Write(frame)`) or answers the operator
(`Say(message)`), which writes nothing to the socket.

## Behaviour worth knowing

- The log decorator only colours by level. It does not parse timestamps,
  spans or categories.
- Among lines that can be read, discovery ends only at an `I` line whose
  third token is not `RPC_REGISTER`, and only once a registration has been
  seen. Lines that do not start with `I` never
  end it, and neither does a malformed `RPC_REGISTER` line.
- An integer argument outside the `i16` range is reported as "Please enter a
  valid integer." A float argument is scaled with a saturating cast, so its
  overflow is never reported.
- A line that cannot be read (a read error, or text that is not UTF-8) ends
  discovery with what has been collected so far, and is not displayed. The
  line iterator is not fused, so the relay carries on with the line after
  it, and stops at the next line that cannot be read.

## Model

| member | source | states |
|---|---|---|
| Ints.ParseI16RoundTrip | src/repl.rs:139-142 | every `i16`, printed in decimal, is read back by `parse::<i16>` as the same value |
| Ints.ParseI16 | src/repl.rs:139 | a parsed value comes from a text of digits with at most one leading sign, ending in a digit; a `-` gives a value at most zero and no `-` a value at least zero |
| Ints.SignedDecimalOutOfRange | src/repl.rs:139-141 | a decimal number outside the `i16` range, on either side, is refused by `parse::<i16>` |
| Ints.ParseI16Rejects | src/repl.rs:139-141 | the integer parse refuses an empty text, a bare `-`, a `-` after the first position, a magnitude above 32767 without a sign, and a magnitude above 32768 after a `-` |
| Ints.ParseU8RoundTrip | src/repl.rs:58 | every identifier printed in decimal is read back as itself by `parse::<u8>` |
| Ints.ParseU8 | src/repl.rs:58 | after an optional leading `+`, a text is accepted exactly when it is a nonempty run of ASCII digits whose value is at most 255, and the identifier is that value; a larger number, such as `300`, is refused rather than wrapped |
| Ints.SignedHalves | src/repl.rs:143 | `(v >> 8) as u8` and `(v & 0xff) as u8` of a signed value are the high and low bytes of its 16-bit two's-complement pattern |
| Ints.AsU16 | src/control.rs:47 | `v as u16` keeps the sixteen bits of a signed value: the result agrees with it modulo 65536 |
| Ints.AsI16 | src/control.rs:47-48 | reading sixteen bits back as two's complement, as the car does with a frame: the result agrees with the unsigned word modulo 65536 (its inverse relation to `as u16` is `TwosComplementRoundTrip`) |
| Ints.AsU8 | src/control.rs:47-48 | `x as u8` keeps the low eight bits: the result differs from the input by a multiple of 256 |
| Ints.TwosComplementRoundTrip | src/control.rs:47-48 | `as u16` and reading back as two's complement are mutually inverse |
| Text.TrimSpec | src/watch.rs:18 | the trimmed line is a contiguous part of the line, and neither of its ends is whitespace |
| Text.TrimIdempotent | src/watch.rs:18 | trimming an already trimmed line changes nothing |
| Text.Trim | src/watch.rs:18 | the trimmed line is no longer than the line, and neither of its ends is whitespace; `TrimSpec` adds that it is a contiguous part of the line |
| Text.TokensOfJoin | src/repl.rs:70 | joining words with single spaces and splitting the result on ASCII whitespace gives back the same words |
| Text.TokensCoverText | src/repl.rs:41 | the tokens, concatenated, are exactly the characters that are not ASCII whitespace of the line, in order |
| Text.Tokens | src/repl.rs:41 | every token is a nonempty run of characters that are not ASCII whitespace; `TokensCoverText` adds that together they are all such characters, in order |
| Text.Join | src/repl.rs:70 | no contract of its own: `TokensOfJoin` specifies it, since splitting the joined words gives back the words |
| Text.Count | src/repl.rs:121 | the number of times the character occurs in the text, its multiplicity in the text's multiset |
| Text.SplitOnce | src/watch.rs:19 | there is no split exactly when the separator is absent; otherwise the line is the part before, the separator, then the part after, and the part before holds no separator |
| Watch.DecorateKeepsText | src/watch.rs:17-26 | the displayed text is the trimmed line, a contiguous part of the input |
| Watch.Decorate | src/watch.rs:17-26 | the shown text is the trimmed line; it is red, yellow or green exactly when it starts with `E `, `W ` or `I `, and plain otherwise, which covers a bare level token, `D` and `T` lines and a line without a space |
| Watch.DecorateIgnoresSurroundingWhitespace | src/watch.rs:18 | whitespace around a line changes neither its colour nor its text |
| Watch.DecorateOfTrim | src/watch.rs:18 | decorating a trimmed line renders the same as decorating the raw line |
| Control.Encode | src/control.rs:42-57 | a frame is four bytes: marker `0xff`, then direction 0 (left) or 1 (right), then two bytes that read back, big-endian and two's complement, as the speed |
| Control.HighHalf | src/control.rs:47 | `speed as u16 & 0xff00` has its low byte clear and the high byte of the speed's unsigned pattern |
| Control.LowHalf | src/control.rs:48 | `speed & 0xff` is the low byte of the speed's unsigned pattern |
| Control.DecodeEncode | src/control.rs:42-57 | the car's reading of an encoded command is that command |
| Control.EncodeDecode | src/control.rs:42-57 | every well-formed motor frame is the encoding of the command it decodes to |
| Control.EncodeInjective | src/control.rs:42-57 | two different commands never share a frame |
| Control.KeyControls | src/control.rs:168-225 | each terminal event sends one or two commands, every speed being -1000, 0 or 1000 |
| Control.ReleaseStopsWhatPressDrives | src/control.rs:169-220 | releasing a key sends zero speed to exactly the motors its press drives, in the same order |
| Control.OnlyDriveKeysMove | src/control.rs:168-225 | a motor is set moving exactly by a press of `l`, `h`, `j` or `k`; every other event sends only zero speeds: releasing `l` or `h` stops that one motor, and any other event stops both |
| Control.ReverseMirrorsForward | src/control.rs:193-213 | `j` drives both motors, in the same order, at the negated speed `k` uses |
| Discovery.ClassifyTokens | src/repl.rs:41-81 | a line is a registration exactly when it has at least five tokens, the first `I`, the third `RPC_REGISTER`, a valid `id=` fourth token and a kind fifth token; the descriptor then carries that identifier, the named kind and the remaining tokens joined with single spaces. A line is classed as not an `I` line exactly when its first token is not `I`, and as unrelated exactly when it is an `I` line with no `RPC_REGISTER` third token |
| Discovery.RegistrationRoundTrip | src/repl.rs:40-82 | a well-formed registration line, with any timestamp, yields exactly the descriptor it was written from |
| Discovery.TimestampIgnored | src/repl.rs:46-47 | the second token never affects the classification |
| Discovery.IdField | src/repl.rs:56-65 | a fourth token gives an identifier exactly when it splits at its first `=` into the key `id` and a value that `parse::<u8>` accepts; the identifier is that value |
| Discovery.KindOf | src/repl.rs:67-80 | a fifth token names a kind only when it is `FN`, `SET` or `GET`, and the kind is the one it names; any other token names none |
| Discovery.ClassifyLine | src/repl.rs:41-81 | a line of text is never unreadable; it is classed as not an `I` line exactly when its first ASCII-whitespace token is not `I`; a registration's description splits into the line's tokens from the sixth on |
| Discovery.Classify | src/repl.rs:36-37 | an item is unreadable exactly when reading it failed |
| Discovery.IdFieldRoundTrip | src/repl.rs:56-65 | the token `id=<n>` reads back as identifier `n` |
| Discovery.Discover | src/repl.rs:36-83 | discovery reads up to and including the first unreadable line, or the first unrelated `I` line after a registration, or to the end of the stream; it returns the registrations among the lines read, in order |
| Discovery.DiscoveryUnique | src/repl.rs:37-83 | at most one result satisfies the stop policy for a given stream |
| Discovery.NoiseBeforeFirstRegistration | src/repl.rs:49-53 | before any registration, a line ends discovery exactly when it cannot be read |
| Discovery.SkippedLinesNeverEnd | src/repl.rs:43-45 | a line that is not an `I` line, or a malformed registration, never ends discovery |
| Discovery.AllRegistrationsDiscovered | src/repl.rs:37-83 | a stream of registrations only is read to its end, and yields every descriptor in order |
| Discovery.StopAfterRegistrations | src/repl.rs:49-52 | two registrations followed by an unrelated `I` line yield both descriptors, after exactly three lines |
| Discovery.SessionOfRegistrationLines | src/repl.rs:36-83 | two registration lines as the device prints them, followed by an unrelated `I` line, discover both descriptors in order after reading exactly three lines |
| Discovery.RegistrationsAppend | src/repl.rs:82 | the registrations of two consecutive stretches of lines are those of the first, then those of the second |
| Discovery.Scan | src/repl.rs:36-83 | the scanner's loop returns the unique discovery result and displays each readable line it read, in order |
| Discovery.Relay | src/repl.rs:85 | the relay displays every line from the handoff point on, in order, up to the first line that cannot be read |
| Discovery.ReadSession | src/repl.rs:36-88 | the descriptors handed over are those of discovery, and scanner and relay together display every readable line up to where the relay stops, once each, in order |
| Discovery.RelayEnd | src/repl.rs:85 | the relay stops at the first unreadable line from the handoff on, or at the end; every line before it is readable |
| Discovery.ReadableSessionShowsAll | src/repl.rs:36-88 | when every line can be read, the relay runs to the end of the stream and every line is displayed decorated, once, in order |
| Commands.Group | src/repl.rs:90-99 | each group holds the entries of one kind, in discovery order |
| Commands.GroupingIsPartition | src/repl.rs:93-99 | the three groups together hold every descriptor exactly once: same count, and the same multiset once kinds are restored |
| Commands.MembershipByKind | src/repl.rs:93-99 | an entry is in group `k` exactly when a descriptor of kind `k` with that identifier and description was discovered |
| Commands.OfKindAppend | src/repl.rs:93-99 | grouping keeps stream order across consecutive stretches of descriptors |
| Commands.IntegerFrame | src/repl.rs:143 | the integer path's frame decodes to the same identifier and value |
| Commands.FloatFrame | src/repl.rs:131-132 | the float path's frame, built from `as u16`, decodes to the same identifier and scaled value |
| Commands.RpcFrameRoundTrip | src/repl.rs:143 | every well-formed RPC frame is the integer frame of what it decodes to |
| Commands.EncodeArgument | src/repl.rs:120-146 | a written frame carries the entry's identifier, and a refusal is one of the three argument messages |
| Commands.ClassifyArgument | src/repl.rs:120-145 | an argument takes the float path exactly when it holds exactly one `.`; it takes the integer path only when every character is a digit or `-`; it is no number exactly when it does not hold exactly one `.` and some character is neither a digit nor `-` |
| Commands.ArgumentValue | src/repl.rs:120-146 | on the integer path a frame is written exactly when `parse::<i16>` succeeds, carrying the parsed value, and otherwise the reply is "Please enter a valid integer."; the float path does the same with the scaled value and "Please enter a valid floating point number."; any other argument gets "Need one num parameter." |
| Commands.CallGet | src/repl.rs:162-167 | `get` always writes `[0x7f, id, 0, 0]`, whatever the arguments |
| Commands.CallSet | src/repl.rs:179-215 | `set` without an argument writes nothing and asks for one; any frame it writes carries the entry's identifier |
| Commands.CallFn | src/repl.rs:110-150 | `fn` without an argument writes value 0 to its entry; with arguments it handles the first as a number; any frame it writes carries the entry's identifier |
| Commands.Call | src/repl.rs:110-215 | for every kind, a written frame carries the entry's identifier; `get` always writes value 0; `set` without an argument asks for one; `fn` and `set` with arguments handle the first as a number |
| Commands.FnWithoutArgument | src/repl.rs:111-117 | `fn` without an argument sends value 0 to its entry |
| Commands.SetWithoutArgument | src/repl.rs:180-183 | `set` without an argument replies "Need one parameter." |
| Commands.ExtraArgumentsIgnored | src/repl.rs:111 | only the first argument is ever read |
| Commands.IntegerArgumentRoundTrip | src/repl.rs:134-143 | for `fn` and `set`, any `i16` typed in decimal reaches the device unchanged |
| Commands.OutOfRangeRefused | src/repl.rs:139-141 | for `fn` and `set`, a decimal number outside the `i16` range writes nothing and gets "Please enter a valid integer." |
| Commands.SeveralPointsRefused | src/repl.rs:121-145 | for `fn` and `set`, an argument with more than one `.` is neither a float nor an integer, and gets "Need one num parameter." |
| Commands.TwelveExample | src/repl.rs:134-143 | typing `12` writes the integer frame of value 12 |
| Commands.WordArgumentExample | src/repl.rs:199-210 | typing `abc` after `set` writes nothing and gets "Need one num parameter." |

## Left out

- TCP connections, the connect timeout, and the threads and channels (`mpsc`, the one-shot handoff of the descriptor list) are not modelled. The model's input is the sequence of lines received; the handoff is the return value of the scanner.
- The error value of a failed read is not modelled. A line that cannot be read is the item `ReadError`; what happens after it is modelled.
- The line terminator is not modelled: lines are given without their `\n` or `\r\n`.
- The `shi` shell is not modelled: its prompt, its lookup of a command by description, its argument splitting and its "not found" handling. The library's source is not part of this model. A command reaches the model as its kind, identifier and argument list.
- `write_all` on the socket, and the 400 ms pause after `get`, are not modelled. Both are I/O and timing.
- Commands.FloatFrame, Commands.EncodeArgument: `parse::<f64>` followed by the saturating `(x * 100.0) as i16` is a parameter `scale: string -> Option<i16>`, not modelled. Floating point is outside the model; the properties hold for every such function.
- The echo command of the shell is not modelled. It writes nothing to the device.
- The ratatui console, the println of each motor frame, and the motor-frame writer task in `control` are not modelled. They are terminal and network output.
- The phone-orientation input (`phone_handling`) is not modelled. It is a websocket source driven by floating-point sensor values.
- The `watch` subcommand's read loop is not modelled. Only `decorate_log`, which it calls, is.
- Watch.Decorate: terminal colour codes are not modelled. A style tag stands for them; `D`, `T` and unknown levels are `Plain`.
- `generate.rs`, `cli.rs`, `connect.rs` and `main.rs` are not modelled. They cover the command-line surface, completions and man pages, and connection setup.

=== FILE: commands.dfy ===
/**
 The interactive side of the session: the discovered descriptors are
 grouped by kind, and each `fn`, `get` or `set` command typed by the
 operator becomes either a four-byte frame `[0x7f, id, hi, lo]` written to
 the device or a message shown to the operator.
 */
module Commands {
  import opened Wrappers
  import opened Ints
  import opened Text
  import opened Discovery

  // ---------------------------------------------------------------------
  // Grouping

  /** One callable entry of a group: `(id, describe)`. */
  datatype Binding = Binding(id: u8, describe: string)

  /** The three command groups registered with the shell. */
  datatype Groups = Groups(fns: seq<Binding>, sets: seq<Binding>, gets: seq<Binding>)

  function BindingOf(d: Descriptor): Binding
  {
    Binding(d.id, d.describe)
  }

  /** The entries of the descriptors of kind `k`, in stream order. */
  function OfKind(ds: seq<Descriptor>, k: Kind): seq<Binding>
  {
    if |ds| == 0 then []
    else
      var last := ds[|ds| - 1];
      OfKind(ds[..|ds| - 1], k) + if last.kind == k then [BindingOf(last)] else []
  }

  /**
   Grouping the descriptors by kind (repl.rs, lines 90-99): each group holds
   the entries of one kind, in the order they were discovered.
   */
  method Group(commands: seq<Descriptor>) returns (g: Groups)
    ensures g.fns == OfKind(commands, Fn)
    ensures g.sets == OfKind(commands, Set)
    ensures g.gets == OfKind(commands, Get)
  {
    var fns, sets, gets := [], [], [];
    var i := 0;
    while i < |commands|
      invariant i <= |commands|
      invariant fns == OfKind(commands[..i], Fn)
      invariant sets == OfKind(commands[..i], Set)
      invariant gets == OfKind(commands[..i], Get)
    {
      var c := commands[i];
      assert commands[..i + 1][..i] == commands[..i];
      match c.kind {
        case Fn => fns := fns + [BindingOf(c)];
        case Set => sets := sets + [BindingOf(c)];
        case Get => gets := gets + [BindingOf(c)];
      }
      i := i + 1;
    }
    assert commands[..i] == commands;
    g := Groups(fns, sets, gets);
  }

  /** The descriptors a group stands for, with their kind restored. */
  function Retag(bs: seq<Binding>, k: Kind): (ds: seq<Descriptor>)
    ensures |ds| == |bs|
  {
    seq(|bs|, i requires 0 <= i < |bs| => Descriptor(k, bs[i].id, bs[i].describe))
  }

  /**
   The groups partition the descriptors: each descriptor lands in exactly
   one group, so restoring the kinds gives back the same multiset.
   */
  lemma {:induction false} GroupingIsPartition(ds: seq<Descriptor>)
    ensures |OfKind(ds, Fn)| + |OfKind(ds, Set)| + |OfKind(ds, Get)| == |ds|
    ensures multiset(Retag(OfKind(ds, Fn), Fn)) + multiset(Retag(OfKind(ds, Set), Set))
            + multiset(Retag(OfKind(ds, Get), Get)) == multiset(ds)
    decreases |ds|
  {
    if |ds| > 0 {
      var init, last := ds[..|ds| - 1], ds[|ds| - 1];
      GroupingIsPartition(init);
      RetagStep(init, last, Fn);
      RetagStep(init, last, Set);
      RetagStep(init, last, Get);
      assert ds == init + [last];
    }
  }

  /** Adding a descriptor adds it, with its kind restored, to its own group only. */
  lemma RetagStep(init: seq<Descriptor>, last: Descriptor, k: Kind)
    ensures Retag(OfKind(init + [last], k), k)
            == Retag(OfKind(init, k), k) + (if last.kind == k then [last] else [])
  {
    var ds := init + [last];
    assert ds[..|ds| - 1] == init;
  }

  /** An entry is in group `k` exactly when a descriptor of kind `k` with its id and description was discovered. */
  lemma {:induction false} MembershipByKind(ds: seq<Descriptor>, k: Kind, b: Binding)
    ensures b in OfKind(ds, k) <==> Descriptor(k, b.id, b.describe) in ds
    decreases |ds|
  {
    if |ds| > 0 {
      var init := ds[..|ds| - 1];
      MembershipByKind(init, k, b);
      assert ds == init + [ds[|ds| - 1]];
    }
  }

  /** Grouping keeps stream order: the entries of earlier descriptors come first. */
  lemma {:induction false} OfKindAppend(a: seq<Descriptor>, b: seq<Descriptor>, k: Kind)
    ensures OfKind(a + b, k) == OfKind(a, k) + OfKind(b, k)
    decreases |b|
  {
    if |b| == 0 {
      assert a + b == a;
    } else {
      var b' := b[..|b| - 1];
      assert (a + b)[..|a + b| - 1] == a + b';
      OfKindAppend(a, b', k);
    }
  }

  // ---------------------------------------------------------------------
  // Frames

  const RpcMarker: u8 := 0x7f

  /** What the car reads from an RPC frame: the identifier and the signed value. */
  function DecodeRpc(frame: seq<u8>): (r: Option<(u8, i16)>)
    ensures r.Some? ==> |frame| == 4 && frame[0] == RpcMarker && r.value.0 == frame[1]
  {
    if |frame| == 4 && frame[0] == RpcMarker then Some((frame[1], AsI16(Word(frame[2], frame[3]))))
    else None
  }

  /**
   The frame of the integer path (repl.rs, line 143): marker, identifier,
   then the value's sixteen bits high byte first.
   */
  function IntegerFrame(id: u8, val: i16): (f: seq<u8>)
    ensures DecodeRpc(f) == Some((id, val))
  {
    SignedHalves(val);
    WordSplit(AsU16(val));
    TwosComplementRoundTrip(val, 0);
    [RpcMarker, id, AsU8(val / 0x100), AsU8(val % 0x100)]
  }

  /**
   The frame of the floating-point path (repl.rs, lines 131-132): the
   scaled value is first reinterpreted as `u16`, then split.
   */
  function FloatFrame(id: u8, scaled: i16): (f: seq<u8>)
    ensures DecodeRpc(f) == Some((id, scaled))
  {
    var val := AsU16(scaled);
    WordSplit(val);
    TwosComplementRoundTrip(scaled, 0);
    [RpcMarker, id, AsU8(val / 0x100), AsU8(val % 0x100)]
  }

  /** Every RPC frame is the integer frame of what it decodes to. */
  lemma RpcFrameRoundTrip(frame: seq<u8>)
    requires DecodeRpc(frame).Some?
    ensures IntegerFrame(DecodeRpc(frame).value.0, DecodeRpc(frame).value.1) == frame
  {
    var u := Word(frame[2], frame[3]);
    WordHalves(frame[2], frame[3]);
    var v := AsI16(u);
    TwosComplementRoundTrip(v, u);
    SignedHalves(v);
    assert IntegerFrame(frame[1], v) == [RpcMarker, frame[1], frame[2], frame[3]];
  }

  // ---------------------------------------------------------------------
  // Arguments

  const NeedParameter := "Need one parameter."
  const NeedNumber := "Need one num parameter."
  const InvalidInteger := "Please enter a valid integer."
  const InvalidFloat := "Please enter a valid floating point number."

  /** The three ways an argument is read. */
  datatype ArgumentClass = Float | Integer | NotNumber

  /**
   Exactly one `.` selects the floating-point path; otherwise an argument
   made only of digits and `-` takes the integer path.
   */
  function ClassifyArgument(arg: string): (r: ArgumentClass)
    ensures r == Float <==> multiset(arg)['.'] == 1
    ensures r == Integer ==> '.' !in arg && forall i | 0 <= i < |arg| :: arg[i] == '-' || IsDigit(arg[i])
    ensures r == NotNumber <==>
      multiset(arg)['.'] != 1 && exists i | 0 <= i < |arg| :: arg[i] != '-' && !IsDigit(arg[i])
  {
    if Count(arg, '.') == 1 then Float
    else if forall i | 0 <= i < |arg| :: arg[i] == '-' || IsDigit(arg[i]) then Integer
    else NotNumber
  }

  /** What a command does: write a frame to the device, or show a message. */
  datatype Reply = Write(frame: seq<u8>) | Say(message: string)

  /**
   The argument handling shared by `fn` and `set` (repl.rs, lines 120-146
   and 185-211). `scale` stands for `parse::<f64>` followed by the
   saturating `(x * 100.0) as i16`, which this model leaves abstract.
   */
  function EncodeArgument(id: u8, arg: string, scale: string -> Option<i16>): (r: Reply)
    ensures r.Write? ==> DecodeRpc(r.frame).Some? && DecodeRpc(r.frame).value.0 == id
    ensures r.Say? ==> r.message in {NeedNumber, InvalidInteger, InvalidFloat}
  {
    match ClassifyArgument(arg)
    case Float =>
      (match scale(arg)
       case Some(v) => Write(FloatFrame(id, v))
       case None => Say(InvalidFloat))
    case Integer =>
      (match ParseI16(arg)
       case Some(v) => Write(IntegerFrame(id, v))
       case None => Say(InvalidInteger))
    case NotNumber => Say(NeedNumber)
  }

  /** `fn <describe> [arg]` (repl.rs, lines 110-150): no argument sends value 0. */
  function CallFn(id: u8, args: seq<string>, scale: string -> Option<i16>): (r: Reply)
    ensures r.Write? ==> DecodeRpc(r.frame).Some? && DecodeRpc(r.frame).value.0 == id
    ensures |args| == 0 ==> r.Write? && DecodeRpc(r.frame) == Some((id, 0))
    ensures |args| > 0 ==> r == EncodeArgument(id, args[0], scale)
  {
    TwosComplementRoundTrip(0, 0);
    if |args| == 0 then Write([RpcMarker, id, 0, 0]) else EncodeArgument(id, args[0], scale)
  }

  /** `get <describe>` (repl.rs, lines 162-167): always sends value 0, arguments ignored. */
  function CallGet(id: u8, args: seq<string>): (r: Reply)
    ensures r.Write? && DecodeRpc(r.frame) == Some((id, 0))
  {
    Write([RpcMarker, id, 0, 0])
  }

  /** `set <describe> <arg>` (repl.rs, lines 179-215): an argument is required. */
  function CallSet(id: u8, args: seq<string>, scale: string -> Option<i16>): (r: Reply)
    ensures r.Write? ==> DecodeRpc(r.frame).Some? && DecodeRpc(r.frame).value.0 == id
    ensures |args| == 0 ==> r == Say(NeedParameter)
  {
    if |args| == 0 then Say(NeedParameter) else EncodeArgument(id, args[0], scale)
  }

  /** The command for a descriptor of kind `k`. */
  function Call(k: Kind, id: u8, args: seq<string>, scale: string -> Option<i16>): (r: Reply)
    ensures r.Write? ==> DecodeRpc(r.frame).Some? && DecodeRpc(r.frame).value.0 == id
    ensures k == Get ==> r.Write? && DecodeRpc(r.frame) == Some((id, 0))
    ensures k == Set && |args| == 0 ==> r == Say(NeedParameter)
    ensures k != Get && |args| > 0 ==> r == EncodeArgument(id, args[0], scale)
  {
    match k
    case Fn => CallFn(id, args, scale)
    case Get => CallGet(id, args)
    case Set => CallSet(id, args, scale)
  }

  /** `fn` without an argument sends value 0. */
  lemma FnWithoutArgument(id: u8, scale: string -> Option<i16>)
    ensures DecodeRpc(Call(Fn, id, [], scale).frame) == Some((id, 0))
  {
    TwosComplementRoundTrip(0, 0);
  }

  /** `set` without an argument writes nothing and asks for one. */
  lemma SetWithoutArgument(id: u8, scale: string -> Option<i16>)
    ensures Call(Set, id, [], scale) == Say(NeedParameter)
  {
  }

  /** Only the first argument is ever looked at. */
  lemma ExtraArgumentsIgnored(k: Kind, id: u8, arg: string, extra: seq<string>, scale: string -> Option<i16>)
    ensures Call(k, id, [arg] + extra, scale) == Call(k, id, [arg], scale)
  {
  }

  /**
   A signed 16-bit value typed in decimal reaches the device unchanged: the
   frame decodes to the same identifier and value, whatever the command.
   */
  lemma IntegerArgumentRoundTrip(k: Kind, id: u8, v: i16, scale: string -> Option<i16>)
    requires k != Get
    ensures Call(k, id, [SignedDecimal(v)], scale) == Write(IntegerFrame(id, v))
    ensures DecodeRpc(Call(k, id, [SignedDecimal(v)], scale).frame) == Some((id, v))
  {
    ParseI16RoundTrip(v);
    SignedDecimalIsInteger(v);
  }

  /** A frame is written exactly when the argument parses on its path; the value is the parsed one. */
  lemma ArgumentValue(id: u8, arg: string, scale: string -> Option<i16>)
    ensures ClassifyArgument(arg) == Integer ==>
      (EncodeArgument(id, arg, scale).Write? <==> ParseI16(arg).Some?)
      && (ParseI16(arg).Some? ==> DecodeRpc(EncodeArgument(id, arg, scale).frame) == Some((id, ParseI16(arg).value)))
    ensures ClassifyArgument(arg) == Float ==>
      (EncodeArgument(id, arg, scale).Write? <==> scale(arg).Some?)
      && (scale(arg).Some? ==> DecodeRpc(EncodeArgument(id, arg, scale).frame) == Some((id, scale(arg).value)))
    ensures ClassifyArgument(arg) == Integer && ParseI16(arg).None? ==>
      EncodeArgument(id, arg, scale) == Say(InvalidInteger)
    ensures ClassifyArgument(arg) == Float && scale(arg).None? ==>
      EncodeArgument(id, arg, scale) == Say(InvalidFloat)
    ensures ClassifyArgument(arg) == NotNumber ==> EncodeArgument(id, arg, scale) == Say(NeedNumber)
  {
  }

  /**
   A decimal value outside the signed sixteen-bit range, on either side,
   writes nothing and gets the integer message: no overflowed frame is sent.
   */
  lemma OutOfRangeRefused(k: Kind, id: u8, v: int, scale: string -> Option<i16>)
    requires k != Get
    requires v < -0x8000 || 0x7fff < v
    ensures Call(k, id, [SignedDecimal(v)], scale) == Say(InvalidInteger)
  {
    SignedDecimalIsInteger(v);
    SignedDecimalOutOfRange(v);
  }

  /** Any number printed in decimal takes the integer path. */
  lemma SignedDecimalIsInteger(v: int)
    ensures ClassifyArgument(SignedDecimal(v)) == Integer
  {
    var s := SignedDecimal(v);
    assert forall i | 0 <= i < |s| :: s[i] == '-' || IsDigit(s[i]);
    assert '.' !in multiset(s);
  }

  /** Typing `12` sends the value 12. */
  lemma TwelveExample(id: u8, scale: string -> Option<i16>)
    ensures Call(Fn, id, ["12"], scale) == Write(IntegerFrame(id, 12))
  {
    assert Decimal(12) == "12";
    IntegerArgumentRoundTrip(Fn, id, 12, scale);
  }

  /** Typing a word is refused without writing anything. */
  lemma WordArgumentExample(id: u8, scale: string -> Option<i16>)
    ensures Call(Set, id, ["abc"], scale) == Say(NeedNumber)
  {
    assert multiset("abc")['.'] == 0;
    assert ClassifyArgument("abc") == NotNumber by {
      assert !IsDigit("abc"[0]);
    }
  }

  /** An argument with more than one point is neither a float nor an integer. */
  lemma SeveralPointsRefused(k: Kind, id: u8, arg: string, scale: string -> Option<i16>)
    requires k != Get
    requires multiset(arg)['.'] > 1
    ensures Call(k, id, [arg], scale) == Say(NeedNumber)
  {
    assert '.' in arg;
    var i :| 0 <= i < |arg| && arg[i] == '.';
    assert !IsDigit(arg[i]);
  }
}

=== FILE: control.dfy ===
/**
 The direct-drive control mode: a motor command is a direction and a
 signed sixteen-bit speed, sent as a four-byte frame whose first byte is
 0xff; keyboard events map to fixed motor commands.
 */
module Control {
  import opened Wrappers
  import opened Ints

  /** A speed for one motor of the two-wheeled car. */
  datatype Control = Right(speed: i16) | Left(speed: i16)
  {
    function WithSpeed(s: i16): Control
    {
      match this
      case Right(_) => Right(s)
      case Left(_) => Left(s)
    }
  }

  const MotorMarker: u8 := 0xff
  const LeftDirection: u8 := 0x00
  const RightDirection: u8 := 0x01

  /** `speed as u16 & 0xff00`: the unsigned bits with the low byte cleared. */
  function HighHalf(speed: i16): (r: u16)
    ensures r % 0x100 == 0
    ensures r / 0x100 == AsU16(speed) / 0x100
  {
    var u := AsU16(speed);
    u - u % 0x100
  }

  /** `speed & 0xff` on the two's-complement bits: the low byte. */
  function LowHalf(speed: i16): (r: u8)
    ensures r == AsU16(speed) % 0x100
  {
    speed % 0x100
  }

  /**
   `Control::encode`: marker, direction, then the speed's sixteen bits
   high byte first, so that the bytes read back as the same signed speed.
   */
  function Encode(c: Control): (r: seq<u8>)
    ensures |r| == 4 && r[0] == MotorMarker
    ensures r[1] == (if c.Left? then LeftDirection else RightDirection)
    ensures AsI16(Word(r[2], r[3])) == c.speed
  {
    HalvesOfSpeed(c.speed);
    match c
    case Left(speed) =>
      [MotorMarker, LeftDirection, AsU8(HighHalf(speed) / 0x100), AsU8(LowHalf(speed))]
    case Right(speed) =>
      [MotorMarker, RightDirection, AsU8(HighHalf(speed) / 0x100), AsU8(LowHalf(speed))]
  }

  /** The high and low halves of a speed, read back as one word, are the speed. */
  lemma HalvesOfSpeed(v: i16)
    ensures AsI16(Word(AsU8(HighHalf(v) / 0x100), AsU8(LowHalf(v)))) == v
  {
    var u := AsU16(v);
    assert AsU8(HighHalf(v) / 0x100) == u / 0x100 by {
      assert HighHalf(v) / 0x100 == u / 0x100;
    }
    assert AsU8(LowHalf(v)) == u % 0x100 by {
      SignedHalves(v);
    }
    assert Word(u / 0x100, u % 0x100) == u by {
      WordSplit(u);
    }
    TwosComplementRoundTrip(v, u);
  }

  /** What the car reads from a motor frame; anything else is not one. */
  function Decode(frame: seq<u8>): (r: Option<Control>)
    ensures r.Some? ==> |frame| == 4 && frame[0] == MotorMarker
  {
    if |frame| == 4 && frame[0] == MotorMarker && frame[1] == LeftDirection then
      Some(Left(AsI16(Word(frame[2], frame[3]))))
    else if |frame| == 4 && frame[0] == MotorMarker && frame[1] == RightDirection then
      Some(Right(AsI16(Word(frame[2], frame[3]))))
    else None
  }

  /** Every command survives encoding: the car decodes exactly what was sent. */
  lemma DecodeEncode(c: Control)
    ensures Decode(Encode(c)) == Some(c)
  {
  }

  /** Every motor frame is the encoding of the command it decodes to. */
  lemma EncodeDecode(frame: seq<u8>)
    requires Decode(frame).Some?
    ensures Encode(Decode(frame).value) == frame
  {
    HalvesOfWord(frame[2], frame[3]);
  }

  /** The two halves of a speed read from bytes `hi`, `lo` are `hi` and `lo` again. */
  lemma HalvesOfWord(hi: u8, lo: u8)
    ensures AsU8(HighHalf(AsI16(Word(hi, lo))) / 0x100) == hi
    ensures AsU8(LowHalf(AsI16(Word(hi, lo)))) == lo
  {
    var u := Word(hi, lo);
    var v := AsI16(u);
    TwosComplementRoundTrip(v, u);
    assert AsU16(v) == u;
    assert u % 0x100 == lo;
    assert HighHalf(v) == hi * 0x100;
    assert v % 0x100 == lo by {
      if v != u {
        assert v == (hi - 0x100) * 0x100 + lo;
      }
    }
  }

  /** Distinct commands never share a frame. */
  lemma EncodeInjective(a: Control, b: Control)
    ensures Encode(a) == Encode(b) ==> a == b
  {
    DecodeEncode(a);
    DecodeEncode(b);
  }

  // ---------------------------------------------------------------------
  // Keyboard table

  datatype KeyKind = Press | Repeat | Release
  datatype KeyCode = Char(c: char) | OtherKey
  /** A terminal event: a key event, or anything else (mouse, resize, paste, focus). */
  datatype Event = Key(code: KeyCode, kind: KeyKind) | OtherEvent

  const FullSpeed: i16 := 1000

  /** `input_handling`: the motor commands one terminal event sends, in order. */
  function KeyControls(e: Event): (r: seq<Control>)
    ensures 1 <= |r| <= 2
    ensures forall i | 0 <= i < |r| :: r[i].speed in {-FullSpeed, 0, FullSpeed}
  {
    match e
    case Key(Char('l'), Press) => [Left(FullSpeed)]
    case Key(Char('l'), Release) => [Left(0)]
    case Key(Char('h'), Press) => [Right(FullSpeed)]
    case Key(Char('h'), Release) => [Right(0)]
    case Key(Char('j'), Press) => [Right(-FullSpeed), Left(-FullSpeed)]
    case Key(Char('j'), Release) => [Right(0), Left(0)]
    case Key(Char('k'), Press) => [Right(FullSpeed), Left(FullSpeed)]
    case Key(Char('k'), Release) => [Right(0), Left(0)]
    case _ => [Left(0), Right(0)]
  }

  /** The same commands with every speed set to zero. */
  function Stopped(cs: seq<Control>): (r: seq<Control>)
    ensures |r| == |cs|
    ensures forall i | 0 <= i < |r| :: r[i].speed == 0 && r[i].Left? == cs[i].Left?
  {
    seq(|cs|, i requires 0 <= i < |cs| => cs[i].WithSpeed(0))
  }

  predicate Moves(cs: seq<Control>)
  {
    exists i | 0 <= i < |cs| :: cs[i].speed != 0
  }

  /** Releasing any key stops exactly the motors its press drives, in the same order. */
  lemma ReleaseStopsWhatPressDrives(c: char)
    ensures KeyControls(Key(Char(c), Release)) == Stopped(KeyControls(Key(Char(c), Press)))
  {
  }

  /** Only a press of `l`, `h`, `j` or `k` sets a motor moving; everything else stops. */
  lemma OnlyDriveKeysMove(e: Event)
    ensures Moves(KeyControls(e)) <==>
      e.Key? && e.kind == Press && e.code.Char? && e.code.c in "lhjk"
  {
    var r := KeyControls(e);
    if e.Key? && e.kind == Press && e.code.Char? && e.code.c in "lhjk" {
      assert r[0].speed != 0;
    }
  }

  /** `j` drives both motors backwards at the speed `k` drives them forwards. */
  lemma ReverseMirrorsForward()
    ensures var j, k := KeyControls(Key(Char('j'), Press)), KeyControls(Key(Char('k'), Press));
      |j| == |k| == 2 && forall i | 0 <= i < 2 :: j[i] == k[i].WithSpeed(-k[i].speed)
  {
  }
}

=== FILE: discovery.dfy ===
/**
 Registration discovery: the first lines the device sends are scanned for
 `I <time> RPC_REGISTER id=<u8> <FN|SET|GET> <description>` registrations.
 Unrelated noise before the first registration is skipped; once at least one
 registration is known, the first `I` line whose third token is not
 `RPC_REGISTER` ends discovery.
 A line that cannot be read (a read error, or text that is not UTF-8) ends
 discovery at once and is not displayed. Every line read is displayed once,
 by the scanner or by the relay that follows it; the relay stops at the
 next line that cannot be read.
 */
module Discovery {
  import opened Wrappers
  import opened Ints
  import opened Text
  import opened Watch

  /** The three kinds of remotely callable entries. */
  datatype Kind = Fn | Set | Get

  /** One registration: its kind, its one-byte identifier and its description. */
  datatype Descriptor = Descriptor(kind: Kind, id: u8, describe: string)

  /** How the scanner treats one line. */
  datatype LineClass =
    | NotInfo                             // first token is not `I`
    | Unrelated                           // an `I` line, third token not `RPC_REGISTER`
    | Malformed                           // `RPC_REGISTER` with a bad id or kind: skipped
    | Registration(descriptor: Descriptor)
    | Unreadable                          // a read error or text that is not UTF-8

  /** One item of the line stream: a line of text, or a line that could not be read. */
  datatype Incoming = Line(text: string) | ReadError

  const InfoToken := "I"
  const RegisterToken := "RPC_REGISTER"

  function KindName(k: Kind): string
  {
    match k
    case Fn => "FN"
    case Set => "SET"
    case Get => "GET"
  }

  /** The kind a fifth token names, if it names one. */
  function KindOf(token: string): (r: Option<Kind>)
    ensures r.Some? ==> KindName(r.value) == token
    ensures r.None? ==> token !in {"FN", "SET", "GET"}
  {
    if token == "FN" then Some(Fn)
    else if token == "SET" then Some(Set)
    else if token == "GET" then Some(Get)
    else None
  }

  /** The identifier of an `id=<n>` token: key exactly `id`, value an unsigned byte. */
  function IdField(token: string): (r: Option<u8>)
    ensures r.Some? <==>
      && SplitOnce(token, '=').Some?
      && SplitOnce(token, '=').value.0 == "id"
      && ParseU8(SplitOnce(token, '=').value.1).Some?
    ensures r.Some? ==> r.value == ParseU8(SplitOnce(token, '=').value.1).value
    ensures r.Some? ==> |token| > 3 && token[..3] == "id="
  {
    match SplitOnce(token, '=')
    case Some((key, value)) =>
      if key == "id" then ParseU8(value) else None
    case None => None
  }

  /** The scanner's view of a line, already split into tokens. */
  function ClassifyTokens(ts: seq<string>): (r: LineClass)
    requires forall i | 0 <= i < |ts| :: IsWord(ts[i])
    ensures r.Registration? <==>
      && |ts| >= 5 && ts[0] == InfoToken && ts[2] == RegisterToken
      && IdField(ts[3]).Some? && KindOf(ts[4]).Some?
    ensures r.Registration? ==>
      && r.descriptor.id == IdField(ts[3]).value
      && KindName(r.descriptor.kind) == ts[4]
      && r.descriptor.describe == Join(ts[5..])
      && Tokens(r.descriptor.describe) == ts[5..]
    ensures r.Unrelated? <==> |ts| > 0 && ts[0] == InfoToken && (|ts| < 3 || ts[2] != RegisterToken)
    ensures r.NotInfo? <==> |ts| == 0 || ts[0] != InfoToken
  {
    if |ts| == 0 || ts[0] != InfoToken then NotInfo
    else if |ts| < 3 || ts[2] != RegisterToken then Unrelated
    else if |ts| < 4 || IdField(ts[3]).None? then Malformed
    else if |ts| < 5 || KindOf(ts[4]).None? then Malformed
    else
      TokensOfJoin(ts[5..]);
      Registration(Descriptor(KindOf(ts[4]).value, IdField(ts[3]).value, Join(ts[5..])))
  }

  /** A line of text is classified by its ASCII-whitespace-separated tokens (repl.rs, line 41). */
  function ClassifyLine(line: string): (r: LineClass)
    ensures !r.Unreadable?
    ensures r.NotInfo? <==> |Tokens(line)| == 0 || Tokens(line)[0] != InfoToken
    ensures r.Registration? ==> |Tokens(line)| >= 5 && Tokens(r.descriptor.describe) == Tokens(line)[5..]
  {
    ClassifyTokens(Tokens(line))
  }

  /** The timestamp token is never looked at. */
  lemma TimestampIgnored(ts: seq<string>, stamp: string)
    requires forall i | 0 <= i < |ts| :: IsWord(ts[i])
    requires |ts| >= 2 && IsWord(stamp)
    ensures ClassifyTokens(ts[1 := stamp]) == ClassifyTokens(ts)
  {
    if |ts| >= 5 {
      assert ts[1 := stamp][5..] == ts[5..];
    }
  }

  /** The text of a registration line for `d`, with `stamp` in the time position. */
  function RegistrationLine(stamp: string, d: Descriptor): string
    requires IsWord(stamp)
  {
    Join(RegistrationTokens(stamp, d))
  }

  /**
   A well-formed registration line is recognised and yields its descriptor
   exactly: id, kind and description (its words separated by single spaces).
   */
  lemma RegistrationRoundTrip(stamp: string, d: Descriptor)
    requires IsWord(stamp)
    requires Join(Tokens(d.describe)) == d.describe
    ensures ClassifyLine(RegistrationLine(stamp, d)) == Registration(d)
  {
    var ts := RegistrationTokens(stamp, d);
    TokensOfJoin(ts);
    ClassifyRegistrationTokens(stamp, d);
  }

  /** The tokens of the registration line for `d`. */
  function RegistrationTokens(stamp: string, d: Descriptor): (ts: seq<string>)
    requires IsWord(stamp)
    ensures forall i | 0 <= i < |ts| :: IsWord(ts[i])
  {
    var idToken := "id=" + Decimal(d.id);
    assert IsWord(idToken);
    [InfoToken, stamp, RegisterToken, idToken, KindName(d.kind)] + Tokens(d.describe)
  }

  lemma ClassifyRegistrationTokens(stamp: string, d: Descriptor)
    requires IsWord(stamp)
    requires Join(Tokens(d.describe)) == d.describe
    ensures ClassifyTokens(RegistrationTokens(stamp, d)) == Registration(d)
  {
    var ts := RegistrationTokens(stamp, d);
    IdFieldRoundTrip(d.id);
    assert ts[5..] == Tokens(d.describe);
  }

  /** The `id=` token written for an identifier reads back as that identifier. */
  lemma IdFieldRoundTrip(id: u8)
    ensures IdField("id=" + Decimal(id)) == Some(id)
  {
    assert "id=" + Decimal(id) == "id" + ['='] + Decimal(id);
    SplitOnceAt("id", '=', Decimal(id));
    ParseU8RoundTrip(id);
  }

  // ---------------------------------------------------------------------
  // The stop policy, over the classes of the lines read

  /** The class of one item of the stream. */
  function Classify(x: Incoming): (r: LineClass)
    ensures r.Unreadable? <==> x.ReadError?
  {
    match x
    case Line(text) => ClassifyLine(text)
    case ReadError => Unreadable
  }

  /** The class of each item, in stream order. */
  function Classes(lines: seq<Incoming>): (cs: seq<LineClass>)
    ensures |cs| == |lines|
  {
    seq(|lines|, i requires 0 <= i < |lines| => Classify(lines[i]))
  }

  /** The classes of a stream, given item by item. */
  lemma ClassesAre(lines: seq<Incoming>, cs: seq<LineClass>)
    requires |lines| == |cs|
    requires forall i | 0 <= i < |lines| :: Classify(lines[i]) == cs[i]
    ensures Classes(lines) == cs
  {
  }

  /** What one line adds to the descriptor list: its descriptor if it registers one. */
  function Contribution(c: LineClass): (r: seq<Descriptor>)
    ensures |r| <= 1
    ensures r != [] <==> c.Registration?
  {
    match c
    case Registration(d) => [d]
    case _ => []
  }

  /** The descriptors of the registration lines among `cs`, in stream order. */
  function Registrations(cs: seq<LineClass>): seq<Descriptor>
  {
    if |cs| == 0 then [] else Registrations(cs[..|cs| - 1]) + Contribution(cs[|cs| - 1])
  }

  lemma RegistrationsStep(cs: seq<LineClass>, i: nat)
    requires i < |cs|
    ensures Registrations(cs[..i + 1]) == Registrations(cs[..i]) + Contribution(cs[i])
  {
    assert cs[..i + 1][..i] == cs[..i];
  }

  /**
   Line `i` ends discovery: a line that cannot be read, or an unrelated `I`
   line after at least one registration.
   */
  predicate EndsDiscovery(cs: seq<LineClass>, i: nat)
    requires i < |cs|
  {
    cs[i].Unreadable? || (cs[i].Unrelated? && Registrations(cs[..i]) != [])
  }

  /** The scanner's result: what it found, and how many lines it read. */
  datatype Discovery = Discovery(descriptors: seq<Descriptor>, consumed: nat)

  /**
   What the scanner must return: it reads up to and including the first line
   that ends discovery, or the whole stream if none does, and collects the
   registrations among the lines it read.
   */
  predicate IsDiscovery(cs: seq<LineClass>, r: Discovery)
  {
    && r.consumed <= |cs|
    && r.descriptors == Registrations(cs[..r.consumed])
    && (forall k | 0 <= k < r.consumed - 1 :: !EndsDiscovery(cs, k))
    && (r.consumed < |cs| ==> 0 < r.consumed && EndsDiscovery(cs, r.consumed - 1))
  }

  /** The scanner has read `i` lines without stopping and collected `found`. */
  predicate Scanning(cs: seq<LineClass>, i: nat, found: seq<Descriptor>)
  {
    && i <= |cs|
    && found == Registrations(cs[..i])
    && forall k | 0 <= k < i :: !EndsDiscovery(cs, k)
  }

  lemma ScanBegin(cs: seq<LineClass>)
    ensures Scanning(cs, 0, [])
  {
    assert cs[..0] == [];
  }

  /** Reading a line that does not end discovery keeps the scan going. */
  lemma ScanStep(cs: seq<LineClass>, i: nat, found: seq<Descriptor>)
    requires Scanning(cs, i, found) && i < |cs|
    requires !cs[i].Unreadable? && !(cs[i].Unrelated? && found != [])
    ensures Scanning(cs, i + 1, found + Contribution(cs[i]))
  {
    RegistrationsStep(cs, i);
    assert !EndsDiscovery(cs, i);
  }

  /** Reading a line that ends discovery completes the scan. */
  lemma ScanStop(cs: seq<LineClass>, i: nat, found: seq<Descriptor>)
    requires Scanning(cs, i, found) && i < |cs|
    requires cs[i].Unreadable? || (cs[i].Unrelated? && found != [])
    ensures IsDiscovery(cs, Discovery(found, i + 1))
  {
    RegistrationsStep(cs, i);
  }

  /** Reaching the end of the stream completes the scan with what was found. */
  lemma ScanEnd(cs: seq<LineClass>, found: seq<Descriptor>)
    requires Scanning(cs, |cs|, found)
    ensures IsDiscovery(cs, Discovery(found, |cs|))
  {
    assert cs[..|cs|] == cs;
  }

  /** The scan continued from line `i`, with `found` collected so far. */
  function DiscoverFrom(cs: seq<LineClass>, i: nat, found: seq<Descriptor>): (r: Discovery)
    requires Scanning(cs, i, found)
    ensures i <= r.consumed
    ensures IsDiscovery(cs, r)
    decreases |cs| - i
  {
    if i == |cs| then
      ScanEnd(cs, found);
      Discovery(found, i)
    else if cs[i].Unreadable? || (cs[i].Unrelated? && found != []) then
      ScanStop(cs, i, found);
      Discovery(found, i + 1)
    else
      ScanStep(cs, i, found);
      DiscoverFrom(cs, i + 1, found + Contribution(cs[i]))
  }

  /** The registration scan over the whole stream (repl.rs, lines 37-83). */
  function Discover(lines: seq<Incoming>): (r: Discovery)
    ensures IsDiscovery(Classes(lines), r)
  {
    ScanBegin(Classes(lines));
    DiscoverFrom(Classes(lines), 0, [])
  }

  /** The stop policy leaves no choice: there is exactly one correct scan result. */
  lemma DiscoveryUnique(cs: seq<LineClass>, a: Discovery, b: Discovery)
    requires IsDiscovery(cs, a) && IsDiscovery(cs, b)
    ensures a == b
  {
  }

  /** Registrations of a concatenation: earlier lines' descriptors come first. */
  lemma {:induction false} RegistrationsAppend(a: seq<LineClass>, b: seq<LineClass>)
    ensures Registrations(a + b) == Registrations(a) + Registrations(b)
    decreases |b|
  {
    if |b| == 0 {
      assert a + b == a;
    } else {
      var b' := b[..|b| - 1];
      assert (a + b)[..|a + b| - 1] == a + b';
      RegistrationsAppend(a, b');
    }
  }

  /** Skipped lines never end discovery, whatever has been collected. */
  lemma SkippedLinesNeverEnd(cs: seq<LineClass>, i: nat)
    requires i < |cs|
    requires cs[i].NotInfo? || cs[i].Malformed?
    ensures !EndsDiscovery(cs, i)
  {
  }

  /**
   Before the first registration only a line that cannot be read ends
   discovery: startup noise is skipped.
   */
  lemma {:induction false} NoiseBeforeFirstRegistration(cs: seq<LineClass>, i: nat)
    requires i < |cs|
    requires forall k | 0 <= k < i :: !cs[k].Registration?
    ensures EndsDiscovery(cs, i) <==> cs[i].Unreadable?
  {
    NoRegistrations(cs[..i]);
  }

  lemma {:induction false} NoRegistrations(cs: seq<LineClass>)
    requires forall k | 0 <= k < |cs| :: !cs[k].Registration?
    ensures Registrations(cs) == []
    decreases |cs|
  {
    if |cs| > 0 {
      NoRegistrations(cs[..|cs| - 1]);
    }
  }

  /** A stream of registrations only is read to the end, every line contributing. */
  lemma AllRegistrationsDiscovered(cs: seq<LineClass>, r: Discovery)
    requires forall i | 0 <= i < |cs| :: cs[i].Registration?
    requires IsDiscovery(cs, r)
    ensures r.consumed == |cs|
    ensures |r.descriptors| == |cs|
    ensures forall i | 0 <= i < |cs| :: r.descriptors[i] == cs[i].descriptor
  {
    assert cs[..|cs|] == cs;
    AllRegistered(cs);
  }

  lemma {:induction false} AllRegistered(cs: seq<LineClass>)
    requires forall i | 0 <= i < |cs| :: cs[i].Registration?
    ensures |Registrations(cs)| == |cs|
    ensures forall i | 0 <= i < |cs| :: Registrations(cs)[i] == cs[i].descriptor
    decreases |cs|
  {
    if |cs| > 0 {
      AllRegistered(cs[..|cs| - 1]);
    }
  }

  /**
   Two registrations followed by an unrelated `I` line: discovery yields the
   two descriptors in order and reads exactly the three lines.
   */
  lemma StopAfterRegistrations(da: Descriptor, db: Descriptor)
    ensures var cs := [Registration(da), Registration(db), Unrelated];
      IsDiscovery(cs, Discovery([da, db], 3))
  {
    var cs := [Registration(da), Registration(db), Unrelated];
    ScanBegin(cs);
    ScanStep(cs, 0, []);
    ScanStep(cs, 1, [da]);
    ScanStop(cs, 2, [da, db]);
  }

  /**
   The same at the level of text: two registration lines, as the device
   prints them, followed by any unrelated `I` line.
   */
  lemma SessionOfRegistrationLines(stamp: string, da: Descriptor, db: Descriptor, status: string)
    requires IsWord(stamp)
    requires Join(Tokens(da.describe)) == da.describe && Join(Tokens(db.describe)) == db.describe
    requires ClassifyLine(status) == Unrelated
    ensures Discover([Line(RegistrationLine(stamp, da)), Line(RegistrationLine(stamp, db)), Line(status)])
      == Discovery([da, db], 3)
  {
    var lines := [Line(RegistrationLine(stamp, da)), Line(RegistrationLine(stamp, db)), Line(status)];
    var cs := [Registration(da), Registration(db), Unrelated];
    forall i | 0 <= i < 3
      ensures Classify(lines[i]) == cs[i]
    {
      if i == 0 {
        RegistrationRoundTrip(stamp, da);
      } else if i == 1 {
        RegistrationRoundTrip(stamp, db);
      }
    }
    ClassesAre(lines, cs);
    StopAfterRegistrations(da, db);
    ScanIsDiscover(lines, Discovery([da, db], 3));
  }

  // ---------------------------------------------------------------------
  // The scanner thread and the relay

  /** What displaying one item shows: a line of text is decorated, a line that cannot be read shows nothing. */
  function Shown(x: Incoming): (r: seq<Rendered>)
    ensures |r| <= 1
    ensures r != [] <==> x.Line?
  {
    match x
    case Line(text) => [Decorate(text)]
    case ReadError => []
  }

  /** Everything displayed for `xs`, in order. */
  function Visible(xs: seq<Incoming>): seq<Rendered>
  {
    if |xs| == 0 then [] else Visible(xs[..|xs| - 1]) + Shown(xs[|xs| - 1])
  }

  lemma VisibleStep(xs: seq<Incoming>, i: nat)
    requires i < |xs|
    ensures Visible(xs[..i + 1]) == Visible(xs[..i]) + Shown(xs[i])
  {
    assert xs[..i + 1][..i] == xs[..i];
  }

  /** What is displayed for two consecutive stretches is the first's display, then the second's. */
  lemma {:induction false} VisibleAppend(a: seq<Incoming>, b: seq<Incoming>)
    ensures Visible(a + b) == Visible(a) + Visible(b)
    decreases |b|
  {
    if |b| == 0 {
      assert a + b == a;
    } else {
      var b' := b[..|b| - 1];
      assert (a + b)[..|a + b| - 1] == a + b';
      VisibleAppend(a, b');
    }
  }

  /** When every line could be read, each line is displayed once, decorated, in order. */
  lemma {:induction false} VisibleReadable(xs: seq<Incoming>)
    requires forall i | 0 <= i < |xs| :: xs[i].Line?
    ensures |Visible(xs)| == |xs|
    ensures forall i | 0 <= i < |xs| :: Visible(xs)[i] == Decorate(xs[i].text)
    decreases |xs|
  {
    if |xs| > 0 {
      VisibleReadable(xs[..|xs| - 1]);
    }
  }

  /** Where the relay stops: the first line from `from` on that cannot be read, or the end. */
  function RelayEnd(lines: seq<Incoming>, from: nat): (r: nat)
    requires from <= |lines|
    ensures from <= r <= |lines|
    ensures forall k | from <= k < r :: lines[k].Line?
    ensures r < |lines| ==> lines[r].ReadError?
    decreases |lines| - from
  {
    if from == |lines| || lines[from].ReadError? then from else RelayEnd(lines, from + 1)
  }

  /** A readable line does not move where the relay stops. */
  lemma RelayEndStep(lines: seq<Incoming>, i: nat)
    requires i < |lines| && lines[i].Line?
    ensures RelayEnd(lines, i + 1) == RelayEnd(lines, i)
  {
  }

  lemma VisibleExtend(lines: seq<Incoming>, from: nat, i: nat)
    requires from <= i < |lines|
    ensures Visible(lines[from..i + 1]) == Visible(lines[from..i]) + Shown(lines[i])
  {
    assert lines[from..i + 1][..i - from] == lines[from..i];
  }

  /** A stream without read errors is relayed to its end. */
  lemma RelayEndOfReadable(lines: seq<Incoming>, from: nat)
    requires from <= |lines|
    requires forall k | from <= k < |lines| :: lines[k].Line?
    ensures RelayEnd(lines, from) == |lines|
  {
  }

  /**
   The scanning half of the reader thread (repl.rs, lines 37-83): display
   each line, classify it, and stop after the first line that ends
   discovery. A line that cannot be read ends the scan undisplayed.
   */
  method Scan(lines: seq<Incoming>) returns (commands: seq<Descriptor>, handoff: nat, scanned: seq<Rendered>)
    ensures IsDiscovery(Classes(lines), Discovery(commands, handoff))
    ensures scanned == Visible(lines[..handoff])
  {
    ghost var cs := Classes(lines);
    commands := [];
    scanned := [];
    var i := 0;
    ScanBegin(cs);
    while i < |lines|
      invariant i <= |lines|
      invariant scanned == Visible(lines[..i])
      invariant Scanning(cs, i, commands)
    {
      VisibleStep(lines, i);
      scanned := scanned + Shown(lines[i]);
      var lineClass := Classify(lines[i]);
      assert lineClass == cs[i];
      if lineClass.Unreadable? || (lineClass.Unrelated? && commands != []) {
        ScanStop(cs, i, commands);
        handoff := i + 1;
        return;
      }
      ScanStep(cs, i, commands);
      commands := commands + Contribution(lineClass);
      i := i + 1;
    }
    ScanEnd(cs, commands);
    handoff := i;
  }

  /**
   The relay (repl.rs, line 85): display every line from `handoff` on,
   until a line that cannot be read ends it.
   */
  method Relay(lines: seq<Incoming>, handoff: nat) returns (relayed: seq<Rendered>, stop: nat)
    requires handoff <= |lines|
    ensures stop == RelayEnd(lines, handoff)
    ensures relayed == Visible(lines[handoff..stop])
  {
    relayed := [];
    var i := handoff;
    while i < |lines| && lines[i].Line?
      invariant handoff <= i <= |lines|
      invariant RelayEnd(lines, i) == RelayEnd(lines, handoff)
      invariant relayed == Visible(lines[handoff..i])
    {
      assert RelayEnd(lines, i + 1) == RelayEnd(lines, i) by {
        RelayEndStep(lines, i);
      }
      assert relayed + Shown(lines[i]) == Visible(lines[handoff..i + 1]) by {
        VisibleExtend(lines, handoff, i);
      }
      relayed := relayed + Shown(lines[i]);
      i := i + 1;
    }
    stop := i;
  }

  /**
   The reader thread of the interactive session: scan, hand the descriptors
   over (repl.rs, line 84), relay the rest. Everything displayed is the
   stream up to where the relay stops, each readable line once, in order;
   the scanner and the relay split it at `handoff`.
   */
  method ReadSession(lines: seq<Incoming>)
    returns (commands: seq<Descriptor>, handoff: nat, scanned: seq<Rendered>, relayed: seq<Rendered>)
    ensures handoff == Discover(lines).consumed && commands == Discover(lines).descriptors
    ensures scanned == Visible(lines[..handoff])
    ensures relayed == Visible(lines[handoff..RelayEnd(lines, handoff)])
    ensures scanned + relayed == Visible(lines[..RelayEnd(lines, handoff)])
  {
    commands, handoff, scanned := Scan(lines);
    ScanIsDiscover(lines, Discovery(commands, handoff));
    var stop;
    relayed, stop := Relay(lines, handoff);
    VisibleSplit(lines, handoff, stop);
  }

  /** The display of a prefix, cut in two at `mid`, is the display of each part in turn. */
  lemma VisibleSplit(lines: seq<Incoming>, mid: nat, end: nat)
    requires mid <= end <= |lines|
    ensures Visible(lines[..mid]) + Visible(lines[mid..end]) == Visible(lines[..end])
  {
    VisibleAppend(lines[..mid], lines[mid..end]);
    assert lines[..mid] + lines[mid..end] == lines[..end];
  }

  lemma ScanIsDiscover(lines: seq<Incoming>, r: Discovery)
    requires IsDiscovery(Classes(lines), r)
    ensures Discover(lines) == r
  {
    DiscoveryUnique(Classes(lines), r, Discover(lines));
  }

  /** When every line can be read, the session displays the whole stream, each line once, in order. */
  lemma ReadableSessionShowsAll(lines: seq<Incoming>)
    requires forall k | 0 <= k < |lines| :: lines[k].Line?
    ensures RelayEnd(lines, Discover(lines).consumed) == |lines|
    ensures |Visible(lines)| == |lines|
    ensures forall i | 0 <= i < |lines| :: Visible(lines)[i] == Decorate(lines[i].text)
  {
    RelayEndOfReadable(lines, Discover(lines).consumed);
    VisibleReadable(lines);
  }
}

=== FILE: ints.dfy ===
/**
 Rust's fixed-width integers as ranges of the unbounded `int`, the
 two's-complement reinterpretations between them, and the decimal text
 forms read by `str::parse` and written by `to_string`.
 */
module Ints {
  import opened Wrappers

  type u8 = x: int | 0 <= x < 0x100
  type u16 = x: int | 0 <= x < 0x1_0000
  type i16 = x: int | -0x8000 <= x < 0x8000

  /** `v as u16` for an `i16`: the same sixteen bits read as unsigned. */
  function AsU16(v: i16): (u: u16)
    ensures u % 0x1_0000 == v % 0x1_0000
  {
    if v < 0 then v + 0x1_0000 else v
  }

  /** `u as i16` for a `u16`: the same sixteen bits read as two's complement. */
  function AsI16(u: u16): (v: i16)
    ensures v % 0x1_0000 == u % 0x1_0000
  {
    if u < 0x8000 then u else u - 0x1_0000
  }

  /** `x as u8` for any integer: keep the low eight bits. */
  function AsU8(x: int): (b: u8)
    ensures (x - b) % 0x100 == 0
  {
    x % 0x100
  }

  /** The sixteen-bit value whose big-endian bytes are `hi`, `lo`. */
  function Word(hi: u8, lo: u8): u16
  {
    hi * 0x100 + lo
  }

  /** The two conversions are mutually inverse. */
  lemma TwosComplementRoundTrip(v: i16, u: u16)
    ensures AsI16(AsU16(v)) == v
    ensures AsU16(AsI16(u)) == u
  {
  }

  /** Every sixteen-bit word is exactly one pair of bytes. */
  lemma WordSplit(u: u16)
    ensures 0 <= u / 0x100 < 0x100
    ensures Word(u / 0x100, u % 0x100) == u
  {
  }

  /** The bytes of a word are recovered by division and remainder. */
  lemma WordHalves(hi: u8, lo: u8)
    ensures Word(hi, lo) / 0x100 == hi
    ensures Word(hi, lo) % 0x100 == lo
  {
  }

  /** For an `i16`, `(v >> 8) as u8` and `(v & 0xff) as u8` are the bytes of `val as u16`. */
  lemma SignedHalves(v: i16)
    ensures AsU8(v / 0x100) == AsU16(v) / 0x100
    ensures AsU8(v % 0x100) == AsU16(v) % 0x100
  {
    if v < 0 {
      var q := v / 0x100;
      assert -0x80 <= q < 0;
      assert AsU16(v) == (q + 0x100) * 0x100 + v % 0x100;
    }
  }

  // ---------------------------------------------------------------------
  // Decimal text

  predicate IsDigit(c: char)
  {
    '0' <= c <= '9'
  }

  predicate AllDigits(s: string)
  {
    forall i | 0 <= i < |s| :: IsDigit(s[i])
  }

  function DigitValue(c: char): nat
    requires IsDigit(c)
  {
    (c - '0') as nat
  }

  function DigitChar(d: nat): (c: char)
    requires d < 10
    ensures IsDigit(c) && DigitValue(c) == d
  {
    '0' + d as char
  }

  /** The number a non-empty run of decimal digits denotes (leading zeros allowed). */
  function DigitsValue(s: string): nat
    requires AllDigits(s)
  {
    if |s| == 0 then 0
    else DigitsValue(s[..|s| - 1]) * 10 + DigitValue(s[|s| - 1])
  }

  /** The shortest decimal text of `n`, as `to_string` prints it. */
  function Decimal(n: nat): (s: string)
    ensures 0 < |s|
    ensures AllDigits(s)
    ensures |s| > 1 ==> s[0] != '0'
  {
    if n < 10 then [DigitChar(n)] else Decimal(n / 10) + [DigitChar(n % 10)]
  }

  /** Printing a number in decimal and reading it back yields the number. */
  lemma {:induction false} DecimalRoundTrip(n: nat)
    ensures DigitsValue(Decimal(n)) == n
  {
    if n >= 10 {
      var s := Decimal(n);
      assert s[..|s| - 1] == Decimal(n / 10);
      DecimalRoundTrip(n / 10);
    }
  }

  /**
   `<u8 as FromStr>::from_str`: an optional leading `+`, then at least one
   ASCII digit, with a value that fits eight bits. A `-` is never accepted.
   */
  function ParseU8(s: string): (r: Option<u8>)
    ensures r.Some? ==> 0 < |s| && forall i | 0 <= i < |s| :: IsDigit(s[i]) || (i == 0 && s[i] == '+')
    ensures r.Some? ==> IsDigit(s[|s| - 1])
    ensures var d := if 0 < |s| && s[0] == '+' then s[1..] else s;
      && (r.Some? <==> 0 < |d| && AllDigits(d) && DigitsValue(d) < 0x100)
      && (r.Some? ==> r.value == DigitsValue(d))
  {
    var digits := if 0 < |s| && s[0] == '+' then s[1..] else s;
    if |digits| == 0 || !AllDigits(digits) then None
    else if DigitsValue(digits) < 0x100 then Some(DigitsValue(digits))
    else None
  }

  /**
   `<i16 as FromStr>::from_str`: an optional leading `+` or `-`, then at
   least one ASCII digit, with a signed value that fits sixteen bits.
   */
  function ParseI16(s: string): (r: Option<i16>)
    ensures r.Some? ==> 0 < |s| && forall i | 0 <= i < |s| :: IsDigit(s[i]) || (i == 0 && s[i] in "+-")
    ensures r.Some? ==> IsDigit(s[|s| - 1])
    ensures r.Some? && 0 < |s| && s[0] == '-' ==> r.value <= 0
    ensures r.Some? && 0 < |s| && s[0] != '-' ==> r.value >= 0
  {
    if |s| == 0 then None
    else
      var negative := s[0] == '-';
      var digits := if s[0] == '-' || s[0] == '+' then s[1..] else s;
      if |digits| == 0 || !AllDigits(digits) then None
      else
        var n: int := if negative then -(DigitsValue(digits) as int) else DigitsValue(digits);
        if -0x8000 <= n < 0x8000 then Some(n) else None
  }

  /**
   `<i16 as FromStr>` refuses an empty text, a bare sign, a `-` anywhere but
   first, and a value beyond the signed sixteen-bit range on either side.
   */
  lemma ParseI16Rejects(s: string)
    requires || |s| == 0
             || s == "-"
             || (exists i | 0 < i < |s| :: s[i] == '-')
             || (AllDigits(s) && DigitsValue(s) > 0x7fff)
             || (|s| > 1 && s[0] == '-' && AllDigits(s[1..]) && DigitsValue(s[1..]) > 0x8000)
    ensures ParseI16(s).None?
  {
    if exists i | 0 < i < |s| :: s[i] == '-' {
      var i :| 0 < i < |s| && s[i] == '-';
      assert !IsDigit(s[i]);
    }
  }

  /** `v.to_string()` for a signed value. */
  function SignedDecimal(v: int): (s: string)
  {
    if v < 0 then "-" + Decimal(-v) else Decimal(v)
  }

  /** Every `u8` printed in decimal parses back to itself. */
  lemma ParseU8RoundTrip(n: u8)
    ensures ParseU8(Decimal(n)) == Some(n)
  {
    DecimalRoundTrip(n);
  }

  /** Unsigned digits are read as their value when it fits. */
  lemma ParseI16Digits(d: string)
    requires 0 < |d| && AllDigits(d) && DigitsValue(d) < 0x8000
    ensures ParseI16(d) == Some(DigitsValue(d))
  {
    assert IsDigit(d[0]);
  }

  /** A minus sign before digits negates their value when it fits. */
  lemma ParseI16Negated(d: string)
    requires 0 < |d| && AllDigits(d) && DigitsValue(d) <= 0x8000
    ensures ParseI16("-" + d) == Some(-(DigitsValue(d) as int))
  {
    assert ("-" + d)[1..] == d;
  }

  /** A number outside the signed sixteen-bit range, printed in decimal, is refused. */
  lemma SignedDecimalOutOfRange(v: int)
    requires v < -0x8000 || 0x7fff < v
    ensures ParseI16(SignedDecimal(v)).None?
  {
    var s := SignedDecimal(v);
    if v < 0 {
      var m: nat := -v;
      DecimalRoundTrip(m);
      assert s[1..] == Decimal(m);
    } else {
      DecimalRoundTrip(v);
    }
    ParseI16Rejects(s);
  }

  /** Every `i16` printed in decimal parses back to itself. */
  lemma ParseI16RoundTrip(v: i16)
    ensures ParseI16(SignedDecimal(v)) == Some(v)
  {
    if v < 0 {
      var m: nat := -(v as int);
      DecimalRoundTrip(m);
      ParseI16Negated(Decimal(m));
    } else {
      DecimalRoundTrip(v);
      ParseI16Digits(Decimal(v));
    }
  }
}

=== FILE: text.dfy ===
/**
 The pieces of Rust's `str` API the program leans on, over `string` as a
 sequence of Unicode scalar values: `trim`, `split_ascii_whitespace`,
 `join(" ")`, `split_once` and counting one character.
 */
module Text {
  import opened Wrappers

  /** `char::is_whitespace`: the Unicode White_Space property, which `trim` strips. */
  predicate IsWhitespace(c: char)
  {
    ('\t' <= c <= '\r') || c == ' ' || c == '\U{85}' || c == '\U{A0}' || c == '\U{1680}'
    || ('\U{2000}' <= c <= '\U{200A}') || c == '\U{2028}' || c == '\U{2029}'
    || c == '\U{202F}' || c == '\U{205F}' || c == '\U{3000}'
  }

  /**
   `u8::is_ascii_whitespace`: space, tab, line feed, form feed and carriage
   return (not vertical tab); the separators of `split_ascii_whitespace`.
   */
  predicate IsAsciiWhitespace(c: char)
  {
    c == ' ' || c == '\t' || c == '\n' || c == '\U{C}' || c == '\r'
  }

  predicate AllWhitespace(s: string)
  {
    forall i | 0 <= i < |s| :: IsWhitespace(s[i])
  }

  // ---------------------------------------------------------------------
  // trim

  /** `trim_start`: drop the leading run of whitespace. */
  function TrimStart(s: string): string
    decreases |s|
  {
    if |s| > 0 && IsWhitespace(s[0]) then TrimStart(s[1..]) else s
  }

  /** `trim_end`: drop the trailing run of whitespace. */
  function TrimEnd(s: string): string
    decreases |s|
  {
    if |s| > 0 && IsWhitespace(s[|s| - 1]) then TrimEnd(s[..|s| - 1]) else s
  }

  /** `str::trim`: drop whitespace at both ends. */
  function Trim(s: string): (r: string)
    ensures |r| <= |s|
    ensures |r| > 0 ==> !IsWhitespace(r[0]) && !IsWhitespace(r[|r| - 1])
  {
    TrimStartSpec(s);
    TrimEndSpec(TrimStart(s));
    TrimEnd(TrimStart(s))
  }

  /** `trim_start` removes exactly the leading whitespace: a suffix remains, starting with non-whitespace. */
  lemma {:induction false} TrimStartSpec(s: string)
    ensures var r := TrimStart(s);
      && |r| <= |s| && r == s[|s| - |r|..]
      && AllWhitespace(s[..|s| - |r|])
      && (|r| > 0 ==> !IsWhitespace(r[0]))
    decreases |s|
  {
    if |s| > 0 && IsWhitespace(s[0]) {
      TrimStartSpec(s[1..]);
      var r := TrimStart(s);
      assert s[1..][..|s| - 1 - |r|] == s[1..|s| - |r|];
    }
  }

  /** `trim_end` removes exactly the trailing whitespace: a prefix remains, ending with non-whitespace. */
  lemma {:induction false} TrimEndSpec(s: string)
    ensures var r := TrimEnd(s);
      && |r| <= |s| && r == s[..|r|]
      && AllWhitespace(s[|r|..])
      && (|r| > 0 ==> !IsWhitespace(r[|r| - 1]))
    decreases |s|
  {
    if |s| > 0 && IsWhitespace(s[|s| - 1]) {
      TrimEndSpec(s[..|s| - 1]);
      var r := TrimEnd(s);
      assert s[|r|..] == s[..|s| - 1][|r|..] + [s[|s| - 1]];
    }
  }

  /** `r` sits at offset `i` of `s` with only whitespace before and after it. */
  predicate InfixWithin(r: string, s: string, i: int)
  {
    0 <= i <= |s| - |r| && r == s[i..i + |r|]
    && AllWhitespace(s[..i]) && AllWhitespace(s[i + |r|..])
  }

  /**
   The trim is an infix of the text with only whitespace around it, and it
   neither starts nor ends with whitespace.
   */
  lemma TrimSpec(s: string)
    ensures var r := Trim(s);
      && (|r| > 0 ==> !IsWhitespace(r[0]) && !IsWhitespace(r[|r| - 1]))
      && exists i :: InfixWithin(r, s, i)
  {
    var t := TrimStart(s);
    var r := TrimEnd(t);
    TrimStartSpec(s);
    TrimEndSpec(t);
    var i := |s| - |t|;
    assert s[i..i + |r|] == t[..|r|];
    assert s[i + |r|..] == t[|r|..];
    assert r == Trim(s);
    assert InfixWithin(r, s, i);
  }

  /** A text that neither starts nor ends with whitespace is its own trim. */
  lemma TrimOfTrimmed(t: string)
    requires |t| > 0 ==> !IsWhitespace(t[0]) && !IsWhitespace(t[|t| - 1])
    ensures Trim(t) == t
  {
    assert TrimStart(t) == t;
    assert TrimEnd(t) == t;
  }

  /** Trimming twice is trimming once. */
  lemma TrimIdempotent(s: string)
    ensures Trim(Trim(s)) == Trim(s)
  {
    TrimSpec(s);
    TrimOfTrimmed(Trim(s));
  }

  lemma {:induction false} TrimStartSkipsWhitespace(a: string, s: string)
    requires AllWhitespace(a)
    ensures TrimStart(a + s) == TrimStart(s)
    decreases |a|
  {
    if |a| > 0 {
      assert (a + s)[1..] == a[1..] + s;
      TrimStartSkipsWhitespace(a[1..], s);
    } else {
      assert a + s == s;
    }
  }

  lemma {:induction false} TrimEndSkipsWhitespace(s: string, b: string)
    requires AllWhitespace(b)
    ensures TrimEnd(s + b) == TrimEnd(s)
    decreases |b|
  {
    if |b| > 0 {
      assert (s + b)[..|s + b| - 1] == s + b[..|b| - 1];
      TrimEndSkipsWhitespace(s, b[..|b| - 1]);
    } else {
      assert s + b == s;
    }
  }

  lemma {:induction false} TrimIgnoresTrailingWhitespace(s: string, b: string)
    requires AllWhitespace(b)
    ensures Trim(s + b) == Trim(s)
    decreases |s|
  {
    if |s| == 0 {
      assert s + b == b;
      TrimStartSpec(b);
      assert TrimStart(b) == [];
    } else if IsWhitespace(s[0]) {
      assert (s + b)[1..] == s[1..] + b;
      TrimIgnoresTrailingWhitespace(s[1..], b);
    } else {
      TrimEndSkipsWhitespace(s, b);
    }
  }

  /** Whitespace added around a text (a kept newline, say) does not change its trim. */
  lemma TrimIgnoresSurroundingWhitespace(a: string, s: string, b: string)
    requires AllWhitespace(a) && AllWhitespace(b)
    ensures Trim(a + s + b) == Trim(s)
  {
    assert a + s + b == a + (s + b);
    TrimStartSkipsWhitespace(a, s + b);
    TrimIgnoresTrailingWhitespace(s, b);
  }

  // ---------------------------------------------------------------------
  // split_ascii_whitespace and join

  /** A token of `split_ascii_whitespace`: non-empty, free of ASCII whitespace. */
  predicate IsWord(w: string)
  {
    |w| > 0 && forall i | 0 <= i < |w| :: !IsAsciiWhitespace(w[i])
  }

  /** Length of the leading run of non-separator characters. */
  function WordLength(s: string): (n: nat)
    ensures n <= |s|
    ensures forall i | 0 <= i < n :: !IsAsciiWhitespace(s[i])
    ensures n < |s| ==> IsAsciiWhitespace(s[n])
    decreases |s|
  {
    if |s| == 0 || IsAsciiWhitespace(s[0]) then 0 else 1 + WordLength(s[1..])
  }

  /** `split_ascii_whitespace`: the maximal runs of non-separators, in order. */
  function Tokens(s: string): (ts: seq<string>)
    ensures forall i | 0 <= i < |ts| :: IsWord(ts[i])
    decreases |s|
  {
    if |s| == 0 then []
    else if IsAsciiWhitespace(s[0]) then Tokens(s[1..])
    else
      var n := WordLength(s);
      [s[..n]] + Tokens(s[n..])
  }

  /** `join(" ")`: the words separated by single spaces. */
  function Join(ws: seq<string>): string
  {
    if |ws| == 0 then ""
    else if |ws| == 1 then ws[0]
    else ws[0] + " " + Join(ws[1..])
  }

  /** All characters of `s` that are not ASCII whitespace, in order. */
  function Squeeze(s: string): (r: string)
    ensures |r| <= |s|
    ensures forall i | 0 <= i < |r| :: !IsAsciiWhitespace(r[i])
  {
    if |s| == 0 then ""
    else if IsAsciiWhitespace(s[0]) then Squeeze(s[1..])
    else [s[0]] + Squeeze(s[1..])
  }

  function Concat(ws: seq<string>): string
  {
    if |ws| == 0 then "" else ws[0] + Concat(ws[1..])
  }

  lemma {:induction false} SqueezeAppend(a: string, b: string)
    ensures Squeeze(a + b) == Squeeze(a) + Squeeze(b)
    decreases |a|
  {
    if |a| == 0 {
      assert a + b == b;
    } else {
      assert (a + b)[1..] == a[1..] + b;
      SqueezeAppend(a[1..], b);
    }
  }

  lemma {:induction false} SqueezeWord(w: string)
    requires forall i | 0 <= i < |w| :: !IsAsciiWhitespace(w[i])
    ensures Squeeze(w) == w
    decreases |w|
  {
    if |w| > 0 {
      SqueezeWord(w[1..]);
      assert w == [w[0]] + w[1..];
    }
  }

  /**
   The tokens, glued together, are exactly the non-separator characters of
   the text: splitting loses separators and nothing else.
   */
  lemma {:induction false} TokensCoverText(s: string)
    ensures Concat(Tokens(s)) == Squeeze(s)
    decreases |s|
  {
    if |s| == 0 {
    } else if IsAsciiWhitespace(s[0]) {
      TokensCoverText(s[1..]);
    } else {
      var n := WordLength(s);
      assert s == s[..n] + s[n..];
      SqueezeAppend(s[..n], s[n..]);
      SqueezeWord(s[..n]);
      TokensCoverText(s[n..]);
    }
  }

  lemma {:induction false} WordLengthOfWord(w: string, r: string)
    requires forall i | 0 <= i < |w| :: !IsAsciiWhitespace(w[i])
    requires |r| == 0 || IsAsciiWhitespace(r[0])
    ensures WordLength(w + r) == |w|
    decreases |w|
  {
    if |w| > 0 {
      assert (w + r)[1..] == w[1..] + r;
      WordLengthOfWord(w[1..], r);
    } else {
      assert w + r == r;
    }
  }

  lemma TokensOfWordThen(w: string, r: string)
    requires IsWord(w)
    requires |r| == 0 || IsAsciiWhitespace(r[0])
    ensures Tokens(w + r) == [w] + Tokens(r)
  {
    WordLengthOfWord(w, r);
    var s := w + r;
    assert s[..|w|] == w && s[|w|..] == r;
  }

  /** Joining words with single spaces and splitting again gives back the words. */
  lemma {:induction false} TokensOfJoin(ws: seq<string>)
    requires forall i | 0 <= i < |ws| :: IsWord(ws[i])
    ensures Tokens(Join(ws)) == ws
    decreases |ws|
  {
    if |ws| == 1 {
      TokensOfWordThen(ws[0], "");
      assert ws[0] + "" == ws[0];
    } else if |ws| > 1 {
      var rest := " " + Join(ws[1..]);
      assert Join(ws) == ws[0] + rest;
      TokensOfWordThen(ws[0], rest);
      assert rest[1..] == Join(ws[1..]);
      TokensOfJoin(ws[1..]);
      assert [ws[0]] + ws[1..] == ws;
    }
  }

  // ---------------------------------------------------------------------
  // split_once and counting

  /** `split_once(sep)`: the text before and after the first `sep`, if any. */
  function SplitOnce(s: string, sep: char): (r: Option<(string, string)>)
    ensures r.None? <==> sep !in s
    ensures r.Some? ==> s == r.value.0 + [sep] + r.value.1 && sep !in r.value.0
  {
    if |s| == 0 then None
    else if s[0] == sep then Some(([], s[1..]))
    else
      match SplitOnce(s[1..], sep)
      case None => None
      case Some((before, after)) => Some(([s[0]] + before, after))
  }

  /** Splitting at the first separator recovers the text before and after it. */
  lemma {:induction false} SplitOnceAt(a: string, sep: char, b: string)
    requires sep !in a
    ensures SplitOnce(a + [sep] + b, sep) == Some((a, b))
    decreases |a|
  {
    if |a| > 0 {
      assert (a + [sep] + b)[1..] == a[1..] + [sep] + b;
      SplitOnceAt(a[1..], sep, b);
      assert [a[0]] + a[1..] == a;
    }
  }

  /** `chars().filter(|&x| x == c).count()`. */
  function Count(s: string, c: char): (n: nat)
    ensures n == multiset(s)[c]
  {
    if |s| == 0 then 0
    else
      assert s == [s[0]] + s[1..];
      (if s[0] == c then 1 else 0) + Count(s[1..], c)
  }
}

=== FILE: watch.dfy ===
/**
 The log line decorator: a received line is trimmed, and the token before
 its first space picks the colour it is shown in. The text itself is never
 altered, and every line is shown.
 */
module Watch {
  import opened Wrappers
  import opened Text

  datatype Style = Red | Yellow | Green | Plain

  /** One displayed line: the colour and the characters shown. */
  datatype Rendered = Rendered(style: Style, text: string)

  /** The colour for a level token: errors red, warnings yellow, info green. */
  function LevelStyle(level: string): Style
  {
    if level == "E" then Red
    else if level == "W" then Yellow
    else if level == "I" then Green
    else Plain
  }

  /** The colour of a trimmed line: the level is the text before its first space. */
  function Colour(log: string): Style
  {
    match SplitOnce(log, ' ')
    case Some((level, _)) => LevelStyle(level)
    case None => Plain
  }

  /**
   `decorate_log`: the line is trimmed and shown whole; a trimmed line
   starting with `E `, `W ` or `I ` is red, yellow or green, and any other
   line (debug, trace, unknown levels, no space at all) is plain.
   */
  function Decorate(line: string): (r: Rendered)
    ensures r.text == Trim(line)
    ensures r.style == Red <==> |r.text| >= 2 && r.text[..2] == "E "
    ensures r.style == Yellow <==> |r.text| >= 2 && r.text[..2] == "W "
    ensures r.style == Green <==> |r.text| >= 2 && r.text[..2] == "I "
    ensures r.style == Plain <==> !(|r.text| >= 2 && r.text[..2] in {"E ", "W ", "I "})
  {
    var log := Trim(line);
    ColourByPrefix(log);
    Rendered(Colour(log), log)
  }

  /**
   The shown text is the line itself less the whitespace at its ends: no
   character is added, dropped or changed.
   */
  lemma DecorateKeepsText(line: string)
    ensures Decorate(line).text == Trim(line)
    ensures exists i :: InfixWithin(Decorate(line).text, line, i)
  {
    TrimSpec(line);
  }

  /** The colour depends only on the two first characters of the trimmed line. */
  lemma ColourByPrefix(t: string)
    ensures Colour(t) == Red <==> |t| >= 2 && t[..2] == "E "
    ensures Colour(t) == Yellow <==> |t| >= 2 && t[..2] == "W "
    ensures Colour(t) == Green <==> |t| >= 2 && t[..2] == "I "
  {
    match SplitOnce(t, ' ')
    case None =>
      if |t| >= 2 {
        assert t[1] in t;
      }
    case Some((level, rest)) =>
      assert t == level + [' '] + rest;
      if |level| == 1 {
        assert t[..2] == level + [' '];
      } else if |level| == 0 {
        assert t[0] == ' ';
      } else {
        assert t[1] == level[1] && t[1] != ' ';
        assert t[..2] != "E " && t[..2] != "W " && t[..2] != "I ";
      }
  }

  /** Decorating an already-trimmed line changes nothing. */
  lemma DecorateOfTrim(line: string)
    ensures Decorate(Trim(line)) == Decorate(line)
  {
    TrimIdempotent(line);
  }

  /**
   Whitespace around a line — the newline `read_line` keeps, say — changes
   neither its colour nor its text.
   */
  lemma DecorateIgnoresSurroundingWhitespace(a: string, line: string, b: string)
    requires AllWhitespace(a) && AllWhitespace(b)
    ensures Decorate(a + line + b) == Decorate(line)
  {
    TrimIgnoresSurroundingWhitespace(a, line, b);
  }

  /** An already-trimmed line is shown as it is, in the colour of its prefix. */
  lemma DecorateTrimmed(t: string)
    requires |t| > 0 ==> !IsWhitespace(t[0]) && !IsWhitespace(t[|t| - 1])
    ensures Decorate(t).text == t
    ensures Decorate(t).style == Red <==> |t| >= 2 && t[..2] == "E "
    ensures Decorate(t).style == Yellow <==> |t| >= 2 && t[..2] == "W "
    ensures Decorate(t).style == Green <==> |t| >= 2 && t[..2] == "I "
  {
    TrimOfTrimmed(t);
    ColourByPrefix(t);
  }

  /** An error line with a category renders red and unchanged. */
  lemma ErrorLineExample()
    ensures Decorate("E 00:01:10 NET timeout") == Rendered(Red, "E 00:01:10 NET timeout")
  {
    DecorateTrimmed("E 00:01:10 NET timeout");
  }

  /** A bare level letter has no space after it and is plain. */
  lemma BareLevelExample()
    ensures Decorate("E") == Rendered(Plain, "E")
  {
    DecorateTrimmed("E");
  }
}

=== FILE: wrappers.dfy ===
/** The optional value used wherever the program uses Rust's `Option`. */
module Wrappers {

  datatype Option<+T> = None | Some(value: T)
}
